=== FILE: README.md ===
# Quinta dos Ovos storefront bookkeeping, in Dafny

This project models the in-memory bookkeeping of two variants of a poultry-supply
storefront and back office. The bookkeeping covers the product catalog, the shopping
cart, the sales ledger, salary status, categories, system users and the storefront filter.
Every handler is written as a pure function from one application state to the next.
The properties the handlers keep are proved as contracts and lemmas.

- `records.dfy` (module `Records`): the record shapes of `types.ts` / `index.tsx`. These are product, cart line, transaction, employee and user.
- `seqs.dfy` (module `Seqs`): `Array.prototype.filter` and `Math.max(...xs, 0)` over sequences, with the subsequence relation.
- `cart.dfy` (module `Cart`): add-to-cart, quantity adjustment clamped at 1, removal and the badge count. Both variants share this code. The cart invariant is "one line per product id, every quantity at least 1".
- `search.dfy` (module `Search`): lower-casing and substring containment for the search box.
- `storefront.dfy` (module `Storefront`): the ERP variant in `index.tsx`. It covers checkout with its ledger entry and stock decrement, the store and point-of-sale carts, salary payment and the header badge.
- `catalog.dfy` (module `Catalog`): the admin variant in `App.tsx`. It covers product and user administration, category administration with its relabelling cascade, and the category/search filter.

Modelling choices:
- Prices, costs, stock and quantities are whole Kwanza or units, so they are `int`.
- The clock is a parameter. That covers the `Date.now()` transaction id and the locale date strings.
- `window.confirm` is a boolean parameter `confirmed`.
- Case folding is ASCII-only.

Behaviour of the code a reader might not expect:
- Add-to-cart has no stock check in either file. Both handlers add a line for a product with no stock.
- `onPaySalary` in `index.tsx` only sets the status to PAGO. It appends no SAIDA/RH transaction and sets no payment date.
- `App.tsx` mints product and user ids as the largest existing id plus one, not from the clock.
- The sale transaction of `handleLocalCheckout` records no cost figure. Its description is always "Venda POS", for store orders too.
- Checkout does not clamp stock. A sale larger than the stock leaves negative stock (`Storefront.CheckoutMayOversell`).
- Renaming a category to a name that is already listed is not rejected. The list then holds that name twice (`Catalog.RenameOntoExistingDuplicates`).

## Model

| member | source | states |
|---|---|---|
| Cart.AddToCart | App.tsx:66-75 | An existing line for the product gains exactly one unit, with the same length, order and snapshots. Otherwise one line of quantity 1 is appended. The product always has a line afterwards, and the one-line-per-id/quantity-at-least-1 invariant is kept |
| Cart.AddToCartCount | App.tsx:66-75 | On a well-formed cart, adding a product raises the badge count by exactly one |
| Cart.UpdateQuantity | App.tsx:79-87 | The matching line gets max(1, quantity + delta): never below 1, and equal to 1 or to quantity + delta. Other lines are untouched, and no line is created or removed. The cart invariant is kept |
| Cart.UpdateQuantityClampExample | App.tsx:79-87 | A line of quantity 3 adjusted by -1000 ends at quantity 1 |
| Cart.RemoveFromCart | App.tsx:89-91 | No line for the id remains. Every other line stays, in the original order, and nothing new appears. The cart invariant is kept |
| Cart.RemoveFromCartExact | App.tsx:89-91 | Every line for another id is kept exactly as often as it occurred, and lines for the id occur zero times |
| Cart.RemoveFromCartCount | App.tsx:89-91 | Removing a product's line from a well-formed cart lowers the count by exactly that line's quantity |
| Cart.RemoveAbsent | App.tsx:90 | Removing an id the cart does not hold leaves the cart unchanged |
| Cart.Count | App.tsx:151 | The sum of the quantities is at least the number of lines of a well-formed cart |
| Cart.SubsequenceWellFormed | App.tsx:90 | Filtering lines out of a well-formed cart, in order, leaves it well formed |
| Cart.CountAppend | App.tsx:151 | The count of two concatenated carts is the sum of their counts |
| Catalog.CartCount | App.tsx:202-206 | On a well-formed cart the badge number is positive exactly when the cart has a line, and it is at least the number of lines |
| Catalog.NextId | App.tsx:94 | The new id (used for products and for users) is at least 1 and larger than every existing id. It is 1 or one more than an existing id |
| Catalog.AddProduct | App.tsx:93-97 | Exactly one product is appended: the draft under the id max(existing ids, 0) + 1. The earlier products and the rest of the state are unchanged, and unique ids stay unique |
| Catalog.UpdateProduct | App.tsx:99-102 | The record with the edited id is replaced and every other record stays. Length, order and ids are preserved, and unique ids stay unique |
| Catalog.WithoutProduct | App.tsx:106 | The products left are exactly those with a different id, each as often as before, in catalog order |
| Catalog.DeleteProduct | App.tsx:104-110 | When confirmed, the product leaves the catalog and its line leaves the cart. Survivors in both the catalog and the cart keep their order and their multiplicity, and the cart invariant is kept. When declined, nothing changes |
| Catalog.AddUser | App.tsx:112-117 | One account is appended with the given name, role and date under the id max(existing ids, 0) + 1. Earlier accounts are unchanged |
| Catalog.DeleteUser | App.tsx:119-124 | When confirmed, exactly the accounts with other ids remain, each as often as before, in order. When declined, nothing changes |
| Catalog.DeleteAddedUser | App.tsx:112-124 | Deleting the account just added, under the id it was given, restores the previous state |
| Catalog.AddCategory | App.tsx:126-133 | A listed name leaves the state unchanged. Otherwise the name is appended. The name is listed afterwards, a duplicate-free list stays duplicate-free and a valid selection stays valid |
| Catalog.AddCategoryIdempotent | App.tsx:126-133 | Adding the same category twice equals adding it once |
| Catalog.UpdateCategory | App.tsx:135-140 | Each listed category equal to the old name becomes the new name and every other entry stays in place. Products labelled with the old name carry the new one, and all other products are untouched. Unless the names are equal, the old name is neither listed nor carried by any product. The selection follows the rename and stays valid |
| Catalog.RenameRoundTrip | App.tsx:135-140 | Renaming a category to an unused name and back restores the whole state |
| Catalog.RenameOntoExistingDuplicates | App.tsx:135-137 | Renaming onto a name already listed leaves that name listed twice |
| Catalog.RenameFreshKeepsNoDuplicates | App.tsx:136 | Renaming to an unlisted name keeps the category list duplicate-free |
| Catalog.DeleteCategory | App.tsx:142-149 | When confirmed, every occurrence of the name is dropped from the list and every other entry is kept as often as before, in order. Its products are relabelled 'Sem Categoria' and all others are untouched. A filter on it resets to 'Todos' and the selection stays valid. When declined, nothing changes |
| Catalog.FilteredProducts | App.tsx:31-38 | The result is the in-order subsequence of exactly those products, each as often as in the catalog, that match the category (or 'Todos') and whose name or description contains the query, ignoring case. With 'Todos' and an empty query it is the whole catalog |
| Catalog.SearchIgnoresQueryCase | App.tsx:34-35 | Lower-casing the query first never changes whether a product matches |
| Catalog.NameOccurrenceMatches | App.tsx:34 | A product whose name literally contains the query always matches the search |
| Search.Lower | App.tsx:34-35 | Lower-casing keeps the length, turns each capital 'A'..'Z' into the matching small letter 'a'..'z', and keeps every other character |
| Search.IncludesIffOccurs | App.tsx:34-35 | The substring test holds exactly when the query occurs at some position. The empty query occurs everywhere |
| Search.LowerKeepsOccurrence | App.tsx:34-35 | An occurrence of the query survives lower-casing both texts |
| Seqs.FilterAppend | App.tsx:121 | Filtering a concatenation of two lists is the concatenation of the two filtered lists |
| Seqs.MaxOf | App.tsx:94 | The maximum of the ids and 0 is non-negative, bounds every id, and is 0 or one of the ids |
| Storefront.SaleTotal | index.tsx:360 | The sale amount is non-negative when prices and quantities are |
| Storefront.SaleTotalAppend | index.tsx:360 | The amount of two concatenated carts is the sum of their amounts |
| Storefront.FindLine | index.tsx:363 | The lookup is None exactly when no line has the id. Otherwise it yields the first line with that id |
| Storefront.ApplySale | index.tsx:362-365 | Length, order and all non-stock fields are kept. A product with a line loses the quantity of its first line, without clamping, and a product with no line is unchanged |
| Storefront.LocalCheckout | index.tsx:358-367 | An empty list changes nothing. Otherwise exactly one transaction is appended: ENTRADA, category 'Vendas', description 'Venda POS', the given id and date, the sale amount and no cost. Earlier transactions are untouched and stock is decremented. Carts and employees are unchanged |
| Storefront.StoreCheckout | index.tsx:369-374 | The store cart is empty afterwards and the sale of the previous cart is recorded. The point-of-sale cart and employees are untouched, and an empty cart changes nothing |
| Storefront.PosCheckout | index.tsx:285 | The point-of-sale cart is empty afterwards and its sale is recorded. The store cart is untouched |
| Storefront.StoreAddToCart | index.tsx:433-440 | Only the store cart changes. An existing line gains one unit in place; otherwise a line of quantity 1 is appended. The cart keeps its invariant and its count rises by one |
| Storefront.PosAddToCart | index.tsx:261-264 | Only the point-of-sale cart changes. An existing line gains one unit in place; otherwise a line of quantity 1 is appended. The cart keeps its invariant and its count rises by one |
| Storefront.StoreUpdateQuantity | index.tsx:454 | Only the store cart changes. The matching line gets max(1, quantity + delta), other lines are untouched and the invariant is kept |
| Storefront.StoreRemove | index.tsx:454 | Only the store cart changes. Exactly the lines for other ids remain, each as often as before and in their original order |
| Storefront.PosRemove | index.tsx:279 | Only the point-of-sale cart changes. Exactly the lines for other ids remain, each as often as before and in their original order |
| Storefront.PaySalary | index.tsx:405-408 | Only employees with the id become PAGO, with every other field kept. Other employees are unchanged and no transaction is appended. In `index.tsx` the employee list starts empty (`index.tsx:335`) and nothing adds to it, so this handler only ever runs on an empty list |
| Storefront.PaySalaryIdempotent | index.tsx:405-406 | Paying an employee twice equals paying once |
| Storefront.CartBadge | index.tsx:387 | The badge shows exactly when the cart is non-empty. On a well-formed cart its number is at least the number of lines |
| Storefront.FirstLineUnique | index.tsx:363 | A cart has at most one first line for a given id |
| Storefront.SaleOfWellFormedCart | index.tsx:362-365 | With one line per product, each sold product's stock drops by exactly its line's quantity |
| Storefront.CheckoutTwice | index.tsx:358-365 | Checkout is not idempotent: the same cart checked out twice appends two entries and takes twice the quantity off the stock |
| Storefront.CheckoutMayOversell | index.tsx:364 | Selling more units than are in stock leaves negative stock |
| Storefront.CheckoutExample | index.tsx:358-371 | Three units at 115000 Kz from a stock of 25 produce one ENTRADA of 345000. The stock becomes 22 and the cart is emptied |

## Left out

- React rendering, JSX, toasts, drawer and modal flags, tabs and the slideshow timer: these are display state with no bookkeeping.
- Persistence to localStorage (`index.tsx:331-349`): this is browser I/O through JSON serialisation, which is outside the model.
- `Date.now()` ids and `toLocaleDateString` dates: these are clock readings, so they are taken as parameters.
- Currency formatting with `toLocaleString`, and the floating-point `parseFloat` prices of the admin form: amounts are whole Kwanza here.
- The advisory chat call in `services/geminiService.ts`: it is a network call to an external service.
- `components/InvoiceModal.tsx` and `components/ProductCard.tsx`: pure presentation. The checkout handler `handleLocalCheckout` (`index.tsx:358-367`) builds no invoice record.
- `components/AdminPanel.tsx`: form state. Its trimmed-non-empty guard on category and user names is not a precondition of the handlers, because the handlers accept any string.
- The hard-coded login check (`index.tsx:456`) and the login/logout view switches: these are authentication and navigation, not bookkeeping.
- The product and employee handlers passed to the ERP admin panel (`index.tsx:403-404`) are empty callbacks, so they have no behaviour to model.
- `handleAddProduct` in `App.tsx` (line 95) stores the form's draft, and the form (`components/AdminPanel.tsx:43-49`) sets no `stock` and no `costPrice`, so those two fields are undefined in the stored product. The model's draft always carries integers there. Nothing in `App.tsx` reads either field.
- Employee photo and document attachments: they are opaque strings that no handler reads or writes.
- Search.Lower: models `toLowerCase` on ASCII letters only, because Unicode case folding (for example of accented capitals) is a library table this model does not contain.
- The point-of-sale cart lives in the admin panel's own state (`index.tsx:209`) and is discarded whenever the panel is left: the view switches at `index.tsx:380` and `index.tsx:390` and the logout at `index.tsx:409`. The model keeps it in the application state and does not model that reset, because view changes are navigation.

=== FILE: cart.dfy ===
/**
 * The shopping cart shared by both storefront variants: add a product,
 * adjust a line's quantity (never below 1), remove a line, and the badge
 * count. Together the operations keep the cart invariant "at most one line
 * per product id, every quantity at least 1".
 */
module Cart {
  import opened Records
  import Seqs

  /** Some line of `cart` refers to product `id` (the truthy result of `find`). */
  predicate HasLine(cart: seq<CartItem>, id: int)
  {
    exists i :: 0 <= i < |cart| && cart[i].Id() == id
  }

  /** The cart invariant: one line per product id, every quantity at least 1. */
  predicate WellFormed(cart: seq<CartItem>)
  {
    && (forall i, j :: 0 <= i < j < |cart| ==> cart[i].Id() != cart[j].Id())
    && (forall i :: 0 <= i < |cart| ==> cart[i].quantity >= 1)
  }

  /**
   * Add one unit of `p`: when a line for `p.id` exists its quantity goes up
   * by one and the cart keeps its length and order; otherwise a new line with
   * quantity 1 is appended.
   */
  function AddToCart(cart: seq<CartItem>, p: Product): (r: seq<CartItem>)
    ensures HasLine(cart, p.id) ==>
              && |r| == |cart|
              && forall i :: 0 <= i < |cart| ==>
                   && r[i].product == cart[i].product
                   && r[i].quantity == cart[i].quantity + (if cart[i].Id() == p.id then 1 else 0)
    ensures !HasLine(cart, p.id) ==> r == cart + [CartItem(p, 1)]
    ensures HasLine(r, p.id)
    ensures WellFormed(cart) ==> WellFormed(r)
  {
    if HasLine(cart, p.id) then
      var r := seq(|cart|, i requires 0 <= i < |cart| =>
                 if cart[i].Id() == p.id then cart[i].(quantity := cart[i].quantity + 1) else cart[i]);
      assert forall i :: 0 <= i < |cart| ==> r[i].Id() == cart[i].Id();
      r
    else
      var r := cart + [CartItem(p, 1)];
      assert r[|cart|].Id() == p.id;
      r
  }

  /** `Math.max(1, q)`: the clamp applied to an adjusted quantity. */
  function AtLeastOne(q: int): int
  {
    if q > 1 then q else 1
  }

  /**
   * Shift the quantity of the line(s) for `id` by `delta`, clamping at 1.
   * Lines are never created or removed by this operation.
   */
  function UpdateQuantity(cart: seq<CartItem>, id: int, delta: int): (r: seq<CartItem>)
    ensures |r| == |cart|
    ensures forall i :: 0 <= i < |cart| ==> r[i].product == cart[i].product
    ensures forall i :: 0 <= i < |cart| && cart[i].Id() == id ==>
              r[i].quantity >= 1 && r[i].quantity >= cart[i].quantity + delta
              && (r[i].quantity == 1 || r[i].quantity == cart[i].quantity + delta)
    ensures forall i :: 0 <= i < |cart| && cart[i].Id() != id ==> r[i] == cart[i]
    ensures WellFormed(cart) ==> WellFormed(r)
  {
    seq(|cart|, i requires 0 <= i < |cart| =>
      if cart[i].Id() == id then cart[i].(quantity := AtLeastOne(cart[i].quantity + delta)) else cart[i])
  }

  /** Drop every line for `id`; the other lines stay, in order. */
  function RemoveFromCart(cart: seq<CartItem>, id: int): (r: seq<CartItem>)
    ensures !HasLine(r, id)
    ensures forall x :: x in r <==> x in cart && x.Id() != id
    ensures Seqs.IsSubsequence(r, cart)
    ensures WellFormed(cart) ==> WellFormed(r)
  {
    if |cart| == 0 then []
    else
      assert cart == [cart[0]] + cart[1..];
      var rest := RemoveFromCart(cart[1..], id);
      assert forall i :: 0 <= i < |rest| ==> rest[i] in rest;
      if cart[0].Id() == id then
        assert WellFormed(cart) ==> WellFormed(cart[1..]);
        rest
      else
        var r := [cart[0]] + rest;
        assert r[1..] == rest;
        assert WellFormed(cart) ==> WellFormed(r) by {
          if WellFormed(cart) { SubsequenceWellFormed(r, cart); }
        }
        r
  }

  /** Every line for another id survives removal as often as it occurred; lines for `id` are all gone. */
  lemma {:induction false} RemoveFromCartExact(cart: seq<CartItem>, id: int)
    ensures forall x :: multiset(RemoveFromCart(cart, id))[x] == if x.Id() != id then multiset(cart)[x] else 0
    decreases |cart|
  {
    if |cart| > 0 {
      RemoveFromCartExact(cart[1..], id);
      assert cart == [cart[0]] + cart[1..];
      assert multiset(cart) == multiset([cart[0]]) + multiset(cart[1..]);
      if cart[0].Id() != id {
        var rest := RemoveFromCart(cart[1..], id);
        assert multiset([cart[0]] + rest) == multiset([cart[0]]) + multiset(rest);
      }
    }
  }

  /** The badge count: the sum of the quantities of all lines. */
  function Count(cart: seq<CartItem>): (n: int)
    ensures WellFormed(cart) ==> n >= |cart|
  {
    if |cart| == 0 then 0
    else
      assert WellFormed(cart) ==> WellFormed(cart[1..]);
      cart[0].quantity + Count(cart[1..])
  }

  /** Taking lines out of a well-formed cart, in order, leaves it well formed. */
  lemma {:induction false} SubsequenceWellFormed(a: seq<CartItem>, b: seq<CartItem>)
    requires Seqs.IsSubsequence(a, b)
    requires WellFormed(b)
    ensures WellFormed(a)
    decreases |b|
  {
    if |a| == 0 {
    } else if a[0] == b[0] {
      assert WellFormed(b[1..]);
      SubsequenceWellFormed(a[1..], b[1..]);
      Seqs.SubsequenceMembers(a[1..], b[1..]);
      forall i, j | 0 <= i < j < |a| ensures a[i].Id() != a[j].Id() {
        if i == 0 {
          assert a[j] == a[1..][j - 1];
          assert a[j] in b[1..];
          var k :| 0 <= k < |b[1..]| && b[1..][k] == a[j];
          assert b[k + 1] == a[j];
        } else {
          assert a[i] == a[1..][i - 1] && a[j] == a[1..][j - 1];
        }
      }
      forall i | 0 <= i < |a| ensures a[i].quantity >= 1 {
        if i > 0 {
          assert a[i] == a[1..][i - 1];
        }
      }
    } else {
      assert WellFormed(b[1..]);
      SubsequenceWellFormed(a, b[1..]);
    }
  }

  /** Concatenating carts adds their counts. */
  lemma {:induction false} CountAppend(a: seq<CartItem>, b: seq<CartItem>)
    ensures Count(a + b) == Count(a) + Count(b)
    decreases |a|
  {
    if |a| == 0 {
      assert a + b == b;
    } else {
      assert (a + b)[1..] == a[1..] + b;
      CountAppend(a[1..], b);
    }
  }

  /**
   * Two carts whose quantities agree except at position `k`, where they
   * differ by `delta`, have counts differing by `delta`.
   */
  lemma {:induction false} CountChangeAt(a: seq<CartItem>, b: seq<CartItem>, k: int, delta: int)
    requires |a| == |b| && 0 <= k < |a|
    requires forall i :: 0 <= i < |a| && i != k ==> b[i].quantity == a[i].quantity
    requires b[k].quantity == a[k].quantity + delta
    ensures Count(b) == Count(a) + delta
    decreases |a|
  {
    if k == 0 {
      CountSameQuantities(a[1..], b[1..]);
    } else {
      CountChangeAt(a[1..], b[1..], k - 1, delta);
    }
  }

  lemma {:induction false} CountSameQuantities(a: seq<CartItem>, b: seq<CartItem>)
    requires |a| == |b|
    requires forall i :: 0 <= i < |a| ==> b[i].quantity == a[i].quantity
    ensures Count(b) == Count(a)
    decreases |a|
  {
    if |a| > 0 {
      CountSameQuantities(a[1..], b[1..]);
    }
  }

  /** Adding a product to a well-formed cart raises the badge count by exactly one. */
  lemma AddToCartCount(cart: seq<CartItem>, p: Product)
    requires WellFormed(cart)
    ensures Count(AddToCart(cart, p)) == Count(cart) + 1
  {
    var r := AddToCart(cart, p);
    if HasLine(cart, p.id) {
      var k :| 0 <= k < |cart| && cart[k].Id() == p.id;
      CountChangeAt(cart, r, k, 1);
    } else {
      CountAppend(cart, [CartItem(p, 1)]);
      assert Count([CartItem(p, 1)]) == 1 + Count([]);
    }
  }

  /** Removing the line for `id` lowers the count by exactly that line's quantity. */
  lemma {:induction false} RemoveFromCartCount(cart: seq<CartItem>, k: int)
    requires WellFormed(cart) && 0 <= k < |cart|
    ensures Count(RemoveFromCart(cart, cart[k].Id())) == Count(cart) - cart[k].quantity
    decreases |cart|
  {
    var id := cart[k].Id();
    if k == 0 {
      RemoveAbsent(cart[1..], id);
    } else {
      assert cart[1..][k - 1] == cart[k];
      RemoveFromCartCount(cart[1..], k - 1);
    }
  }

  /** Removing an id the cart does not hold changes nothing. */
  lemma {:induction false} RemoveAbsent(cart: seq<CartItem>, id: int)
    requires !HasLine(cart, id)
    ensures RemoveFromCart(cart, id) == cart
    decreases |cart|
  {
    if |cart| > 0 {
      assert !HasLine(cart[1..], id) by {
        forall i | 0 <= i < |cart[1..]| ensures cart[1..][i].Id() != id {
          assert cart[1..][i] == cart[i + 1];
        }
      }
      RemoveAbsent(cart[1..], id);
      assert cart == [cart[0]] + cart[1..];
    }
  }

  /** The clamp at work: a line of 3 adjusted by -1000 keeps quantity 1 rather than 0 or less. */
  lemma UpdateQuantityClampExample(p: Product)
    ensures UpdateQuantity([CartItem(p, 3)], p.id, -1000) == [CartItem(p, 1)]
  {
  }
}

=== FILE: catalog.dfy ===
/**
 * The storefront-with-admin variant (App.tsx): catalog administration,
 * category administration with its relabelling cascade, system users, and
 * the storefront's category/search filter. The cart handlers of this
 * variant are the ones in module Cart.
 *
 * `window.confirm` is the boolean `confirmed`; the locale date string of a
 * new user is a parameter.
 */
module Catalog {
  import opened Records
  import Seqs
  import Cart
  import Search

  /** The application state the handlers read and replace. */
  datatype Shop = Shop(
    products: seq<Product>,
    categories: seq<string>,
    users: seq<User>,
    cart: seq<CartItem>,
    selected: string,   // the category filter; `All` shows every category
    query: string)      // the search box

  const All := "Todos"
  const Uncategorized := "Sem Categoria"

  /** No two products share an id. */
  predicate UniqueIds(ps: seq<Product>)
  {
    forall i, j :: 0 <= i < j < |ps| ==> ps[i].id != ps[j].id
  }

  /** No category name is listed twice. */
  predicate NoDuplicates(cs: seq<string>)
  {
    forall i, j :: 0 <= i < j < |cs| ==> cs[i] != cs[j]
  }

  /** The selected filter names a listed category or is `All`. */
  predicate SelectionValid(s: Shop)
  {
    s.selected == All || s.selected in s.categories
  }

  /**
   * `Math.max(...ids, 0) + 1`, the id scheme of new products and users:
   * larger than every existing id, and at least 1.
   */
  function NextId(ids: seq<int>): (id: int)
    ensures id >= 1
    ensures forall i :: 0 <= i < |ids| ==> ids[i] < id
    ensures id == 1 || id - 1 in ids
  {
    Seqs.MaxOf(ids) + 1
  }

  function ProductIds(ps: seq<Product>): seq<int>
  {
    seq(|ps|, i requires 0 <= i < |ps| => ps[i].id)
  }

  function UserIds(us: seq<User>): seq<int>
  {
    seq(|us|, i requires 0 <= i < |us| => us[i].id)
  }

  /**
   * `handleAddProduct`: append the draft under a fresh id; the existing
   * products and everything else stay as they were.
   */
  function AddProduct(s: Shop, draft: Product): (r: Shop)
    ensures |r.products| == |s.products| + 1
    ensures r.products[..|s.products|] == s.products
    ensures r.products[|s.products|] == draft.(id := r.products[|s.products|].id)
    ensures r.products[|s.products|].id == NextId(ProductIds(s.products))
    ensures forall i :: 0 <= i < |s.products| ==> s.products[i].id < r.products[|s.products|].id
    ensures UniqueIds(s.products) ==> UniqueIds(r.products)
    ensures r == s.(products := r.products)
  {
    assert forall i :: 0 <= i < |s.products| ==> ProductIds(s.products)[i] == s.products[i].id;
    var r := s.(products := s.products + [draft.(id := NextId(ProductIds(s.products)))]);
    assert r.products[..|s.products|] == s.products;
    r
  }

  /** `handleUpdateProduct`: the record(s) with the edited id are replaced, nothing else moves. */
  function UpdateProduct(s: Shop, updated: Product): (r: Shop)
    ensures |r.products| == |s.products|
    ensures forall i :: 0 <= i < |s.products| && s.products[i].id == updated.id ==> r.products[i] == updated
    ensures forall i :: 0 <= i < |s.products| && s.products[i].id != updated.id ==> r.products[i] == s.products[i]
    ensures forall i :: 0 <= i < |s.products| ==> r.products[i].id == s.products[i].id
    ensures UniqueIds(s.products) ==> UniqueIds(r.products)
    ensures r == s.(products := r.products)
  {
    var ps := seq(|s.products|, i requires 0 <= i < |s.products| =>
                if s.products[i].id == updated.id then updated else s.products[i]);
    s.(products := ps)
  }

  /** `products.filter(p => p.id !== id)`: drop the product(s) with `id`, keep the rest in order. */
  function WithoutProduct(ps: seq<Product>, id: int): (r: seq<Product>)
    ensures forall p :: p in r <==> p in ps && p.id != id
    ensures forall p :: multiset(r)[p] == if p.id != id then multiset(ps)[p] else 0
    ensures Seqs.IsSubsequence(r, ps)
  {
    Seqs.Filter(ps, (p: Product) => p.id != id)
  }

  /**
   * `handleDeleteProduct`: when confirmed, the product leaves the catalog
   * and its line leaves the cart; when declined nothing changes.
   */
  function DeleteProduct(s: Shop, id: int, confirmed: bool): (r: Shop)
    ensures !confirmed ==> r == s
    ensures confirmed ==>
              && (forall p :: p in r.products <==> p in s.products && p.id != id)
              && (forall p :: multiset(r.products)[p] == if p.id != id then multiset(s.products)[p] else 0)
              && Seqs.IsSubsequence(r.products, s.products)
              && !Cart.HasLine(r.cart, id)
              && (forall x :: x in r.cart <==> x in s.cart && x.Id() != id)
              && (forall x :: multiset(r.cart)[x] == if x.Id() != id then multiset(s.cart)[x] else 0)
              && Seqs.IsSubsequence(r.cart, s.cart)
              && r == s.(products := r.products, cart := r.cart)
    ensures Cart.WellFormed(s.cart) ==> Cart.WellFormed(r.cart)
  {
    if confirmed then
      Cart.RemoveFromCartExact(s.cart, id);
      s.(products := WithoutProduct(s.products, id), cart := Cart.RemoveFromCart(s.cart, id))
    else s
  }

  /** `handleAddUser`: append a new account under a fresh id, dated `date`. */
  function AddUser(s: Shop, username: string, role: Role, date: string): (r: Shop)
    ensures |r.users| == |s.users| + 1
    ensures r.users[..|s.users|] == s.users
    ensures var u := r.users[|s.users|];
            && u.username == username && u.role == role && u.createdAt == date
            && u.id == NextId(UserIds(s.users))
            && forall i :: 0 <= i < |s.users| ==> s.users[i].id < u.id
    ensures r == s.(users := r.users)
  {
    assert forall i :: 0 <= i < |s.users| ==> UserIds(s.users)[i] == s.users[i].id;
    var r := s.(users := s.users + [User(NextId(UserIds(s.users)), username, role, date)]);
    assert r.users[..|s.users|] == s.users;
    r
  }

  /** `handleDeleteUser`: when confirmed, drop the account(s) with `id`; when declined nothing changes. */
  function DeleteUser(s: Shop, id: int, confirmed: bool): (r: Shop)
    ensures !confirmed ==> r == s
    ensures confirmed ==>
              && (forall u :: u in r.users <==> u in s.users && u.id != id)
              && (forall u :: multiset(r.users)[u] == if u.id != id then multiset(s.users)[u] else 0)
              && Seqs.IsSubsequence(r.users, s.users)
              && r == s.(users := r.users)
  {
    if confirmed then s.(users := Seqs.Filter(s.users, (u: User) => u.id != id)) else s
  }

  /** Deleting the account just added, under the id it was given, restores the state. */
  lemma DeleteAddedUser(s: Shop, username: string, role: Role, date: string)
    ensures var added := AddUser(s, username, role, date);
            DeleteUser(added, added.users[|s.users|].id, true) == s
  {
    var added := AddUser(s, username, role, date);
    var u := added.users[|s.users|];
    var keep := (x: User) => x.id != u.id;
    assert added.users == s.users + [u];
    Seqs.FilterAppend(s.users, [u], keep);
    assert forall x :: x in s.users ==> keep(x);
    assert Seqs.Filter([u], keep) == [];
  }

  /** `handleAddCategory`: a name already listed is rejected; otherwise it is appended. */
  function AddCategory(s: Shop, name: string): (r: Shop)
    ensures name in s.categories ==> r == s
    ensures name !in s.categories ==> r.categories == s.categories + [name]
    ensures name in r.categories
    ensures NoDuplicates(s.categories) ==> NoDuplicates(r.categories)
    ensures SelectionValid(s) ==> SelectionValid(r)
    ensures r == s.(categories := r.categories)
  {
    if name in s.categories then s
    else
      var r := s.(categories := s.categories + [name]);
      assert r.categories[|s.categories|] == name;
      r
  }

  /** Adding the same category twice is adding it once. */
  lemma AddCategoryIdempotent(s: Shop, name: string)
    ensures AddCategory(AddCategory(s, name), name) == AddCategory(s, name)
  {
  }

  /** Replace every occurrence of `from` by `to` in a list of names. */
  function Rename(cs: seq<string>, from: string, to: string): seq<string>
  {
    seq(|cs|, i requires 0 <= i < |cs| => if cs[i] == from then to else cs[i])
  }

  /** Give every product labelled `from` the label `to`; other products are untouched. */
  function Relabel(ps: seq<Product>, from: string, to: string): seq<Product>
  {
    seq(|ps|, i requires 0 <= i < |ps| => if ps[i].category == from then ps[i].(category := to) else ps[i])
  }

  /**
   * `handleUpdateCategory`: rename in the list and on every product, and
   * let the selected filter follow the rename.
   */
  function UpdateCategory(s: Shop, oldName: string, newName: string): (r: Shop)
    ensures |r.categories| == |s.categories| && |r.products| == |s.products|
    ensures forall i :: 0 <= i < |s.categories| ==>
              r.categories[i] == (if s.categories[i] == oldName then newName else s.categories[i])
    ensures oldName != newName ==> oldName !in r.categories
    ensures oldName in s.categories ==> newName in r.categories
    ensures oldName != newName ==> forall i :: 0 <= i < |r.products| ==> r.products[i].category != oldName
    ensures forall i :: 0 <= i < |s.products| && s.products[i].category == oldName ==>
              r.products[i] == s.products[i].(category := newName)
    ensures forall i :: 0 <= i < |s.products| && s.products[i].category != oldName ==>
              r.products[i] == s.products[i]
    ensures r.selected == (if s.selected == oldName then newName else s.selected)
    ensures oldName in s.categories && SelectionValid(s) ==> SelectionValid(r)
    ensures r == s.(categories := r.categories, products := r.products, selected := r.selected)
  {
    var cs := Rename(s.categories, oldName, newName);
    assert oldName in s.categories ==> newName in cs by {
      if oldName in s.categories {
        var k :| 0 <= k < |s.categories| && s.categories[k] == oldName;
        assert cs[k] == newName;
      }
    }
    assert s.selected in s.categories && s.selected != oldName ==> s.selected in cs by {
      if s.selected in s.categories && s.selected != oldName {
        var k :| 0 <= k < |s.categories| && s.categories[k] == s.selected;
        assert cs[k] == s.selected;
      }
    }
    s.(categories := cs,
       products := Relabel(s.products, oldName, newName),
       selected := if s.selected == oldName then newName else s.selected)
  }

  /**
   * Renaming to a fresh name and back restores the state: nothing else
   * carried the fresh name, so nothing else is swept up by the way back.
   */
  lemma RenameRoundTrip(s: Shop, a: string, b: string)
    requires b !in s.categories && s.selected != b
    requires forall i :: 0 <= i < |s.products| ==> s.products[i].category != b
    ensures UpdateCategory(UpdateCategory(s, a, b), b, a) == s
  {
  }

  /** Renaming onto a name already listed leaves that name listed twice: the rename does not reject it. */
  lemma RenameOntoExistingDuplicates(s: Shop, a: string, b: string)
    requires a != b && a in s.categories && b in s.categories
    ensures !NoDuplicates(UpdateCategory(s, a, b).categories)
  {
    var r := UpdateCategory(s, a, b);
    var i :| 0 <= i < |s.categories| && s.categories[i] == a;
    var j :| 0 <= j < |s.categories| && s.categories[j] == b;
    assert r.categories[i] == b && r.categories[j] == b;
    if i < j {
      assert !(r.categories[i] != r.categories[j]);
    } else {
      assert !(r.categories[j] != r.categories[i]);
    }
  }

  /** A rename to a name not yet listed keeps the category list free of duplicates. */
  lemma RenameFreshKeepsNoDuplicates(s: Shop, a: string, b: string)
    requires NoDuplicates(s.categories) && b !in s.categories
    ensures NoDuplicates(UpdateCategory(s, a, b).categories)
  {
    var cs := UpdateCategory(s, a, b).categories;
    forall i, j | 0 <= i < j < |cs| ensures cs[i] != cs[j] {
      if s.categories[i] == a {
        assert s.categories[j] in s.categories;
      } else if s.categories[j] == a {
        assert s.categories[i] in s.categories;
      }
    }
  }

  /**
   * `handleDeleteCategory`: when confirmed, the name leaves the list, its
   * products are relabelled `Uncategorized`, and a filter on it falls back
   * to `All`; when declined nothing changes.
   */
  function DeleteCategory(s: Shop, name: string, confirmed: bool): (r: Shop)
    ensures !confirmed ==> r == s
    ensures confirmed ==>
              && (forall c :: c in r.categories <==> c in s.categories && c != name)
              && (forall c :: multiset(r.categories)[c] == if c != name then multiset(s.categories)[c] else 0)
              && Seqs.IsSubsequence(r.categories, s.categories)
              && |r.products| == |s.products|
              && (forall i :: 0 <= i < |s.products| && s.products[i].category == name ==>
                    r.products[i] == s.products[i].(category := Uncategorized))
              && (forall i :: 0 <= i < |s.products| && s.products[i].category != name ==>
                    r.products[i] == s.products[i])
              && (name != Uncategorized ==> forall i :: 0 <= i < |r.products| ==> r.products[i].category != name)
              && r.selected == (if s.selected == name then All else s.selected)
              && r == s.(categories := r.categories, products := r.products, selected := r.selected)
    ensures SelectionValid(s) ==> SelectionValid(r)
  {
    if confirmed then
      var ps := Relabel(s.products, name, Uncategorized);
      assert |ps| == |s.products|;
      assert forall i :: 0 <= i < |s.products| ==>
               ps[i] == if s.products[i].category == name then s.products[i].(category := Uncategorized) else s.products[i];
      var cs := Seqs.Filter(s.categories, (c: string) => c != name);
      assert forall c :: multiset(cs)[c] == if c != name then multiset(s.categories)[c] else 0;
      assert forall c :: c in cs <==> c in s.categories && c != name;
      s.(categories := cs,
         products := ps,
         selected := if s.selected == name then All else s.selected)
    else s
  }

  /** The category half of the storefront filter. */
  predicate MatchesCategory(p: Product, selected: string)
  {
    selected == All || p.category == selected
  }

  /** The search half: the lower-cased name or description contains the lower-cased query. */
  predicate MatchesSearch(p: Product, query: string)
  {
    || Search.Includes(Search.Lower(p.name), Search.Lower(query))
    || Search.Includes(Search.Lower(p.description), Search.Lower(query))
  }

  /** `filteredProducts`: the products passing both halves of the filter, in catalog order. */
  function FilteredProducts(s: Shop): (r: seq<Product>)
    ensures forall p :: p in r <==> p in s.products && MatchesCategory(p, s.selected) && MatchesSearch(p, s.query)
    ensures forall p :: multiset(r)[p] ==
              if MatchesCategory(p, s.selected) && MatchesSearch(p, s.query) then multiset(s.products)[p] else 0
    ensures Seqs.IsSubsequence(r, s.products)
    ensures s.selected == All && s.query == "" ==> r == s.products
  {
    assert forall p :: s.query == "" ==> MatchesSearch(p, s.query);
    Seqs.Filter(s.products, (p: Product) => MatchesCategory(p, s.selected) && MatchesSearch(p, s.query))
  }

  /** The search is case-insensitive in the query: lower-casing it first changes nothing. */
  lemma SearchIgnoresQueryCase(p: Product, query: string)
    ensures MatchesSearch(p, query) <==> MatchesSearch(p, Search.Lower(query))
  {
    Search.LowerIdempotent(query);
  }

  /** A product whose name literally contains the query is found by it, whatever the letter case. */
  lemma NameOccurrenceMatches(p: Product, query: string, i: int)
    requires Search.OccursAt(p.name, query, i)
    ensures MatchesSearch(p, query)
  {
    Search.LowerKeepsOccurrence(p.name, query, i);
    Search.IncludesIffOccurs(Search.Lower(p.name), Search.Lower(query));
  }

  /** `cartCount`: the badge number, never less than the number of lines of a well-formed cart. */
  function CartCount(s: Shop): (n: int)
    ensures Cart.WellFormed(s.cart) ==> n >= |s.cart|
    ensures Cart.WellFormed(s.cart) ==> (n > 0 <==> |s.cart| > 0)
  {
    Cart.Count(s.cart)
  }
}

=== FILE: records.dfy ===
/**
 * The record shapes shared by both storefront variants: catalog products,
 * cart lines, ledger transactions, employees and system users.
 *
 * Monetary amounts, stock and quantities are whole Kwanza / units, so they
 * are modelled as unbounded `int`. The product rating is a decimal that no
 * operation computes with, so it is carried as a `real`.
 */
module Records {

  datatype Option<T> = None | Some(value: T)

  /** A sellable catalog entry; `id` is the key every relation goes through. */
  datatype Product = Product(
    id: int,
    name: string,
    description: string,
    price: int,
    costPrice: int,
    category: string,
    image: string,
    rating: real,
    stock: int)

  /** A cart line: a snapshot of the product taken when it was added, plus a quantity. */
  datatype CartItem = CartItem(product: Product, quantity: int) {
    function Id(): int { product.id }
  }

  datatype TxKind = Entrada | Saida

  /** One ledger entry. `cost` is absent on the sales this model produces. */
  datatype Transaction = Transaction(
    id: int,
    date: string,
    description: string,
    amount: int,
    kind: TxKind,
    category: string,
    cost: Option<int>)

  datatype PaymentStatus = Pago | Pendente

  /** An employee; `lastPaymentDate` and `paymentStatus` are optional fields. */
  datatype Employee = Employee(
    id: int,
    name: string,
    role: string,
    category: string,
    salary: int,
    admissionDate: string,
    contact: string,
    lastPaymentDate: Option<string>,
    paymentStatus: Option<PaymentStatus>)

  datatype Role = Admin | Staff

  /** A back-office account, in the shape the user-management handler creates. */
  datatype User = User(id: int, username: string, role: Role, createdAt: string)
}

=== FILE: search.dfy ===
/**
 * The storefront search: lower-casing and substring containment
 * (`toLowerCase` and `includes`). Lower-casing is modelled on ASCII letters
 * only.
 */
module Search {

  function LowerChar(c: char): char
  {
    if 'A' <= c <= 'Z' then (c as int + 32) as char else c
  }

  /**
   * ASCII `toLowerCase`: same length, each capital 'A'..'Z' becomes its small
   * letter 'a'..'z', other characters untouched.
   */
  function Lower(s: string): (r: string)
    ensures |r| == |s|
    ensures forall i :: 0 <= i < |r| ==> !('A' <= r[i] <= 'Z')
    ensures forall i :: 0 <= i < |s| && !('A' <= s[i] <= 'Z') ==> r[i] == s[i]
    ensures forall i :: 0 <= i < |s| && 'A' <= s[i] <= 'Z' ==> r[i] == (s[i] as int + 32) as char
  {
    seq(|s|, i requires 0 <= i < |s| => LowerChar(s[i]))
  }

  /** Lower-casing twice is lower-casing once. */
  lemma LowerIdempotent(s: string)
    ensures Lower(Lower(s)) == Lower(s)
  {
  }

  /** `q` occurs in `s` starting at position `i`. */
  predicate OccursAt(s: string, q: string, i: int)
  {
    0 <= i && i + |q| <= |s| && s[i..i + |q|] == q
  }

  /** `s.includes(q)`, by scanning the start positions left to right. */
  function Includes(s: string, q: string): bool
    decreases |s|
  {
    if |q| > |s| then false
    else if s[..|q|] == q then true
    else Includes(s[1..], q)
  }

  /** `Includes` holds exactly when `q` occurs somewhere in `s`; the empty query occurs everywhere. */
  lemma {:induction false} IncludesIffOccurs(s: string, q: string)
    ensures Includes(s, q) <==> exists i :: OccursAt(s, q, i)
    decreases |s|
  {
    if |q| > |s| {
    } else if s[..|q|] == q {
      assert OccursAt(s, q, 0);
    } else {
      IncludesIffOccurs(s[1..], q);
      if Includes(s[1..], q) {
        var i :| OccursAt(s[1..], q, i);
        assert s[i + 1..i + 1 + |q|] == s[1..][i..i + |q|];
        assert OccursAt(s, q, i + 1);
      } else {
        forall i | OccursAt(s, q, i) ensures false {
          if i > 0 {
            assert s[1..][i - 1..i - 1 + |q|] == s[i..i + |q|];
            assert OccursAt(s[1..], q, i - 1);
          }
        }
      }
    }
  }

  /** A literal occurrence survives lower-casing both sides. */
  lemma LowerKeepsOccurrence(s: string, q: string, i: int)
    requires OccursAt(s, q, i)
    ensures OccursAt(Lower(s), Lower(q), i)
  {
    forall k | 0 <= k < |q| ensures Lower(s)[i + k] == Lower(q)[k] {
      assert s[i + k] == s[i..i + |q|][k];
    }
  }
}

=== FILE: seqs.dfy ===
/**
 * Sequence helpers mirroring the array built-ins the handlers use:
 * `Array.prototype.filter` and `Math.max(...xs, 0)`.
 */
module Seqs {

  /** `a` can be obtained from `b` by deleting elements: the order of `b` is kept. */
  predicate IsSubsequence<T(==)>(a: seq<T>, b: seq<T>)
    decreases |b|
  {
    if |a| == 0 then true
    else if |b| == 0 then false
    else if a[0] == b[0] then IsSubsequence(a[1..], b[1..])
    else IsSubsequence(a, b[1..])
  }

  /**
   * The elements of `s` that `keep` accepts, in their original order, each
   * with its original multiplicity.
   */
  function Filter<T(==,!new)>(s: seq<T>, keep: T -> bool): (r: seq<T>)
    ensures |r| <= |s|
    ensures forall x :: x in r <==> x in s && keep(x)
    ensures forall x :: multiset(r)[x] == if keep(x) then multiset(s)[x] else 0
    ensures IsSubsequence(r, s)
    ensures (forall x :: x in s ==> keep(x)) ==> r == s
  {
    if |s| == 0 then []
    else
      assert s == [s[0]] + s[1..];
      var rest := Filter(s[1..], keep);
      if keep(s[0]) then
        assert ([s[0]] + rest)[1..] == rest;
        [s[0]] + rest
      else
        assert |rest| > 0 ==> rest[0] in rest;
        rest
  }

  /** Filtering a concatenation filters each part. */
  lemma {:induction false} FilterAppend<T(!new)>(a: seq<T>, b: seq<T>, keep: T -> bool)
    ensures Filter(a + b, keep) == Filter(a, keep) + Filter(b, keep)
    decreases |a|
  {
    if |a| == 0 {
      assert a + b == b;
    } else {
      assert (a + b)[1..] == a[1..] + b;
      FilterAppend(a[1..], b, keep);
    }
  }

  /** Everything in a subsequence comes from the sequence it was taken from. */
  lemma {:induction false} SubsequenceMembers<T>(a: seq<T>, b: seq<T>)
    requires IsSubsequence(a, b)
    ensures forall x :: x in a ==> x in b
    decreases |b|
  {
    if |a| == 0 {
    } else if a[0] == b[0] {
      SubsequenceMembers(a[1..], b[1..]);
      forall x | x in a ensures x in b {
        if x != a[0] {
          assert a == [a[0]] + a[1..];
          assert x in a[1..];
          assert b == [b[0]] + b[1..];
        }
      }
    } else {
      SubsequenceMembers(a, b[1..]);
      assert b == [b[0]] + b[1..];
    }
  }

  /** `Math.max(...xs, 0)`: the largest element, or 0 when it exceeds them all. */
  function MaxOf(xs: seq<int>): (m: int)
    ensures m >= 0
    ensures forall i :: 0 <= i < |xs| ==> xs[i] <= m
    ensures m == 0 || m in xs
  {
    if |xs| == 0 then 0
    else
      var rest := MaxOf(xs[1..]);
      assert rest in xs[1..] ==> rest in xs;
      if xs[0] > rest then xs[0] else rest
  }
}

=== FILE: storefront.dfy ===
/**
 * The consolidated ERP variant (index.tsx): the public store cart, the
 * point-of-sale cart of the back office, checkout with its ledger entry and
 * stock decrement, and salary payment.
 *
 * The clock (`Date.now()` for the transaction id, the locale date string)
 * is taken as parameters.
 */
module Storefront {
  import opened Records
  import Cart
  import Seqs

  /** The application state the handlers read and replace. */
  datatype Erp = Erp(
    products: seq<Product>,
    employees: seq<Employee>,
    transactions: seq<Transaction>,
    cart: seq<CartItem>,     // the store cart
    posCart: seq<CartItem>)  // the point-of-sale cart of the back office

  const SaleDescription := "Venda POS"
  const SalesCategory := "Vendas"

  /** The sale amount: the sum of price times quantity over the lines, using each line's price snapshot. */
  function SaleTotal(items: seq<CartItem>): (t: int)
    ensures (forall i :: 0 <= i < |items| ==> items[i].product.price >= 0 && items[i].quantity >= 0) ==> t >= 0
  {
    if |items| == 0 then 0
    else items[0].product.price * items[0].quantity + SaleTotal(items[1..])
  }

  /** The sale amount of two carts together is the sum of their amounts. */
  lemma {:induction false} SaleTotalAppend(a: seq<CartItem>, b: seq<CartItem>)
    ensures SaleTotal(a + b) == SaleTotal(a) + SaleTotal(b)
    decreases |a|
  {
    if |a| == 0 {
      assert a + b == b;
    } else {
      assert (a + b)[1..] == a[1..] + b;
      SaleTotalAppend(a[1..], b);
    }
  }

  /** `items.find(x => x.id === id)`: the first line for `id`, if any. */
  function FindLine(items: seq<CartItem>, id: int): (r: Option<CartItem>)
    ensures r.None? <==> !Cart.HasLine(items, id)
    ensures r.Some? ==> exists j :: 0 <= j < |items| && items[j] == r.value && FirstLineAt(items, id, j)
  {
    if |items| == 0 then None
    else if items[0].Id() == id then
      assert FirstLineAt(items, id, 0);
      Some(items[0])
    else
      var r := FindLine(items[1..], id);
      assert r.Some? ==> exists j :: 0 <= j < |items| && items[j] == r.value && FirstLineAt(items, id, j) by {
        if r.Some? {
          var j :| 0 <= j < |items[1..]| && items[1..][j] == r.value && FirstLineAt(items[1..], id, j);
          assert FirstLineAt(items, id, j + 1);
        }
      }
      assert r.None? ==> !Cart.HasLine(items, id) by {
        if r.None? {
          forall i | 0 < i < |items| ensures items[i].Id() != id {
            assert items[i] == items[1..][i - 1];
          }
        }
      }
      r
  }

  /** Line `j` is the first line of `items` for product `id`. */
  predicate FirstLineAt(items: seq<CartItem>, id: int, j: int)
  {
    0 <= j < |items| && items[j].Id() == id && forall k :: 0 <= k < j ==> items[k].Id() != id
  }

  /**
   * The stock update of a sale: every product with a line loses the quantity
   * of its first line; nothing else changes. Stock is not clamped at zero.
   */
  function ApplySale(products: seq<Product>, items: seq<CartItem>): (r: seq<Product>)
    ensures |r| == |products|
    ensures forall i :: 0 <= i < |products| ==> r[i] == products[i].(stock := r[i].stock)
    ensures forall i :: 0 <= i < |products| && !Cart.HasLine(items, products[i].id) ==> r[i] == products[i]
    ensures forall i, j :: 0 <= i < |products| && FirstLineAt(items, products[i].id, j) ==>
              r[i].stock == products[i].stock - items[j].quantity
  {
    var r := seq(|products|, i requires 0 <= i < |products| =>
               match FindLine(items, products[i].id)
               case Some(ci) => products[i].(stock := products[i].stock - ci.quantity)
               case None => products[i]);
    assert forall i, j :: 0 <= i < |products| && FirstLineAt(items, products[i].id, j) ==>
             r[i].stock == products[i].stock - items[j].quantity by {
      forall i, j | 0 <= i < |products| && FirstLineAt(items, products[i].id, j)
        ensures r[i].stock == products[i].stock - items[j].quantity
      {
        var f := FindLine(items, products[i].id);
        var j' :| 0 <= j' < |items| && items[j'] == f.value && FirstLineAt(items, products[i].id, j');
        FirstLineUnique(items, products[i].id, j, j');
      }
    }
    r
  }

  /** There is only one first line. */
  lemma FirstLineUnique(items: seq<CartItem>, id: int, j: int, j': int)
    requires FirstLineAt(items, id, j) && FirstLineAt(items, id, j')
    ensures j == j'
  {
  }

  /** The ledger entry a sale produces. */
  function SaleTransaction(items: seq<CartItem>, txId: int, date: string): Transaction
  {
    Transaction(txId, date, SaleDescription, SaleTotal(items), Entrada, SalesCategory, None)
  }

  /**
   * `handleLocalCheckout`: an empty list changes nothing; otherwise exactly
   * one ENTRADA/Vendas entry for the sale amount is appended to the ledger
   * and the stock of the sold products is decremented. Carts, employees and
   * earlier ledger entries are untouched.
   */
  function LocalCheckout(s: Erp, items: seq<CartItem>, txId: int, date: string): (r: Erp)
    ensures |items| == 0 ==> r == s
    ensures |items| > 0 ==>
              && |r.transactions| == |s.transactions| + 1
              && r.transactions[..|s.transactions|] == s.transactions
              && r.transactions[|s.transactions|].amount == SaleTotal(items)
              && r.transactions[|s.transactions|].kind == Entrada
              && r.transactions[|s.transactions|].category == SalesCategory
              && r.transactions[|s.transactions|].id == txId
              && r.transactions[|s.transactions|].date == date
              && r.transactions[|s.transactions|].description == SaleDescription
              && r.transactions[|s.transactions|].cost == None
              && r.products == ApplySale(s.products, items)
    ensures r.cart == s.cart && r.posCart == s.posCart && r.employees == s.employees
  {
    if |items| == 0 then s
    else
      var r := s.(transactions := s.transactions + [SaleTransaction(items, txId, date)],
                  products := ApplySale(s.products, items));
      assert r.transactions[..|s.transactions|] == s.transactions;
      r
  }

  /** `handleStoreCheckout`: check out the store cart, then empty it. */
  function StoreCheckout(s: Erp, txId: int, date: string): (r: Erp)
    ensures r.cart == []
    ensures r.posCart == s.posCart && r.employees == s.employees
    ensures r.products == ApplySale(s.products, s.cart)
    ensures |s.cart| > 0 ==> r.transactions == s.transactions + [SaleTransaction(s.cart, txId, date)]
    ensures |s.cart| == 0 ==> r == s
  {
    LocalCheckout(s, s.cart, txId, date).(cart := [])
  }

  /** "Fechar Venda" in the back office: check out the point-of-sale cart, then empty it. */
  function PosCheckout(s: Erp, txId: int, date: string): (r: Erp)
    ensures r.posCart == []
    ensures r.cart == s.cart && r.employees == s.employees
    ensures r.products == ApplySale(s.products, s.posCart)
    ensures |s.posCart| > 0 ==> r.transactions == s.transactions + [SaleTransaction(s.posCart, txId, date)]
    ensures |s.posCart| == 0 ==> r == s
  {
    LocalCheckout(s, s.posCart, txId, date).(posCart := [])
  }

  /** Store add-to-cart: only the store cart changes, and it stays well formed. */
  function StoreAddToCart(s: Erp, p: Product): (r: Erp)
    ensures r.products == s.products && r.transactions == s.transactions
    ensures r.employees == s.employees && r.posCart == s.posCart
    ensures Cart.HasLine(s.cart, p.id) ==>
              && |r.cart| == |s.cart|
              && forall i :: 0 <= i < |s.cart| ==>
                   && r.cart[i].product == s.cart[i].product
                   && r.cart[i].quantity == s.cart[i].quantity + (if s.cart[i].Id() == p.id then 1 else 0)
    ensures !Cart.HasLine(s.cart, p.id) ==> r.cart == s.cart + [CartItem(p, 1)]
    ensures Cart.HasLine(r.cart, p.id)
    ensures Cart.WellFormed(s.cart) ==> Cart.WellFormed(r.cart)
    ensures Cart.WellFormed(s.cart) ==> Cart.Count(r.cart) == Cart.Count(s.cart) + 1
  {
    var r := s.(cart := Cart.AddToCart(s.cart, p));
    assert Cart.WellFormed(s.cart) ==> Cart.Count(r.cart) == Cart.Count(s.cart) + 1 by {
      if Cart.WellFormed(s.cart) { Cart.AddToCartCount(s.cart, p); }
    }
    r
  }

  /** Point-of-sale add-to-cart: only the point-of-sale cart changes, and it stays well formed. */
  function PosAddToCart(s: Erp, p: Product): (r: Erp)
    ensures r.products == s.products && r.transactions == s.transactions
    ensures r.employees == s.employees && r.cart == s.cart
    ensures Cart.HasLine(s.posCart, p.id) ==>
              && |r.posCart| == |s.posCart|
              && forall i :: 0 <= i < |s.posCart| ==>
                   && r.posCart[i].product == s.posCart[i].product
                   && r.posCart[i].quantity == s.posCart[i].quantity + (if s.posCart[i].Id() == p.id then 1 else 0)
    ensures !Cart.HasLine(s.posCart, p.id) ==> r.posCart == s.posCart + [CartItem(p, 1)]
    ensures Cart.HasLine(r.posCart, p.id)
    ensures Cart.WellFormed(s.posCart) ==> Cart.WellFormed(r.posCart)
    ensures Cart.WellFormed(s.posCart) ==> Cart.Count(r.posCart) == Cart.Count(s.posCart) + 1
  {
    var r := s.(posCart := Cart.AddToCart(s.posCart, p));
    assert Cart.WellFormed(s.posCart) ==> Cart.Count(r.posCart) == Cart.Count(s.posCart) + 1 by {
      if Cart.WellFormed(s.posCart) { Cart.AddToCartCount(s.posCart, p); }
    }
    r
  }

  /** The cart drawer's quantity control: clamps at 1, touches only the store cart. */
  function StoreUpdateQuantity(s: Erp, id: int, delta: int): (r: Erp)
    ensures r.products == s.products && r.transactions == s.transactions
    ensures r.employees == s.employees && r.posCart == s.posCart
    ensures |r.cart| == |s.cart|
    ensures forall i :: 0 <= i < |s.cart| && s.cart[i].Id() == id ==>
              && r.cart[i].product == s.cart[i].product
              && r.cart[i].quantity >= 1 && r.cart[i].quantity >= s.cart[i].quantity + delta
              && (r.cart[i].quantity == 1 || r.cart[i].quantity == s.cart[i].quantity + delta)
    ensures forall i :: 0 <= i < |s.cart| && s.cart[i].Id() != id ==> r.cart[i] == s.cart[i]
    ensures Cart.WellFormed(s.cart) ==> Cart.WellFormed(r.cart)
  {
    s.(cart := Cart.UpdateQuantity(s.cart, id, delta))
  }

  /** The cart drawer's remove control: drops the store-cart lines for `id` only. */
  function StoreRemove(s: Erp, id: int): (r: Erp)
    ensures r.products == s.products && r.transactions == s.transactions
    ensures r.employees == s.employees && r.posCart == s.posCart
    ensures !Cart.HasLine(r.cart, id)
    ensures forall x :: x in r.cart <==> x in s.cart && x.Id() != id
    ensures forall x :: multiset(r.cart)[x] == if x.Id() != id then multiset(s.cart)[x] else 0
    ensures Seqs.IsSubsequence(r.cart, s.cart)
    ensures Cart.WellFormed(s.cart) ==> Cart.WellFormed(r.cart)
  {
    Cart.RemoveFromCartExact(s.cart, id);
    s.(cart := Cart.RemoveFromCart(s.cart, id))
  }

  /** The point-of-sale remove control: drops the point-of-sale lines for `id` only. */
  function PosRemove(s: Erp, id: int): (r: Erp)
    ensures r.products == s.products && r.transactions == s.transactions
    ensures r.employees == s.employees && r.cart == s.cart
    ensures !Cart.HasLine(r.posCart, id)
    ensures forall x :: x in r.posCart <==> x in s.posCart && x.Id() != id
    ensures forall x :: multiset(r.posCart)[x] == if x.Id() != id then multiset(s.posCart)[x] else 0
    ensures Seqs.IsSubsequence(r.posCart, s.posCart)
    ensures Cart.WellFormed(s.posCart) ==> Cart.WellFormed(r.posCart)
  {
    Cart.RemoveFromCartExact(s.posCart, id);
    s.(posCart := Cart.RemoveFromCart(s.posCart, id))
  }

  /**
   * `onPaySalary`: the employee(s) with `id` are marked PAGO; nobody else
   * changes, and in this variant no ledger entry is written.
   */
  function PaySalary(s: Erp, id: int): (r: Erp)
    ensures r.products == s.products && r.transactions == s.transactions
    ensures r.cart == s.cart && r.posCart == s.posCart
    ensures |r.employees| == |s.employees|
    ensures forall i :: 0 <= i < |s.employees| && s.employees[i].id == id ==>
              r.employees[i].paymentStatus == Some(Pago)
              && r.employees[i] == s.employees[i].(paymentStatus := Some(Pago))
    ensures forall i :: 0 <= i < |s.employees| && s.employees[i].id != id ==> r.employees[i] == s.employees[i]
  {
    var es := seq(|s.employees|, i requires 0 <= i < |s.employees| =>
                if s.employees[i].id == id then s.employees[i].(paymentStatus := Some(Pago)) else s.employees[i]);
    s.(employees := es)
  }

  /** Paying the same employee twice leaves the state as paying once. */
  lemma PaySalaryIdempotent(s: Erp, id: int)
    ensures PaySalary(PaySalary(s, id), id) == PaySalary(s, id)
  {
  }

  /** The header badge: shown only for a non-empty cart, with the sum of the quantities. */
  function CartBadge(cart: seq<CartItem>): (b: Option<int>)
    ensures b.Some? <==> |cart| > 0
    ensures Cart.WellFormed(cart) && b.Some? ==> b.value >= |cart| >= 1
  {
    if |cart| > 0 then Some(Cart.Count(cart)) else None
  }

  /** With one line per product, a sale changes each sold product's stock by exactly that line's quantity. */
  lemma SaleOfWellFormedCart(products: seq<Product>, items: seq<CartItem>, i: int, j: int)
    requires Cart.WellFormed(items)
    requires 0 <= i < |products| && 0 <= j < |items| && items[j].Id() == products[i].id
    ensures ApplySale(products, items)[i].stock == products[i].stock - items[j].quantity
  {
  }

  /**
   * Checkout is not idempotent: checking the same cart out twice appends two
   * entries and takes the quantities off the stock twice.
   */
  lemma CheckoutTwice(s: Erp, items: seq<CartItem>, id1: int, id2: int, date: string, i: int, j: int)
    requires Cart.WellFormed(items)
    requires 0 <= i < |s.products| && 0 <= j < |items| && items[j].Id() == s.products[i].id
    ensures var r := LocalCheckout(LocalCheckout(s, items, id1, date), items, id2, date);
            && |r.transactions| == |s.transactions| + 2
            && r.products[i].stock == s.products[i].stock - 2 * items[j].quantity
  {
  }

  /** A sale of more units than are in stock drives the stock negative: there is no oversell guard. */
  lemma CheckoutMayOversell(s: Erp, items: seq<CartItem>, txId: int, date: string, i: int, j: int)
    requires Cart.WellFormed(items)
    requires 0 <= i < |s.products| && 0 <= j < |items| && items[j].Id() == s.products[i].id
    requires items[j].quantity > s.products[i].stock
    ensures LocalCheckout(s, items, txId, date).products[i].stock < 0
  {
  }

  /** Worked example: three units of a 115000 Kz product with 25 in stock. */
  lemma CheckoutExample(p: Product, txId: int, date: string)
    requires p.id == 1 && p.price == 115000 && p.stock == 25
    ensures var s := Erp([p], [], [], [CartItem(p, 3)], []);
            var r := StoreCheckout(s, txId, date);
            && r.transactions == [Transaction(txId, date, SaleDescription, 345000, Entrada, SalesCategory, None)]
            && r.products == [p.(stock := 22)]
            && r.cart == []
  {
    var s := Erp([p], [], [], [CartItem(p, 3)], []);
    assert SaleTotal([CartItem(p, 3)]) == 345000;
    SaleOfWellFormedCart([p], [CartItem(p, 3)], 0, 0);
  }
}
